=== FILE: README.md ===
# Admin API handlers of the Minio server, modelled in Dafny

This project models the decision logic of the administrative API handlers in
`cmd/admin-handlers.go`. Each handler becomes a pure function. Its inputs are the
request fields and the outcomes of the collaborators it calls: object-layer presence,
the authentication verdict, decryption, the duplicate-key check, JSON decoding,
`Validate`, the configuration save, `CreateCredentials`, the bucket and prefix name
checks, the heal-state store and the peers' answers. Its result is a `Run`. A `Run`
holds the ordered effects before the reply, the single HTTP reply, and the effects
after it, for example `Run([ReadBody, Decrypt, …, Save], SuccessHeadersOnly, [SendServiceCmd(restart)])`.
`Effect` has no reply constructor, so no handler can write two replies.

Modules, one per concern of the file:

- `AdminTypes`: credentials, the server configuration, Go errors, API error codes,
  request bodies and the configuration handlers' request and node state, replies,
  effects and `Run`.
- `ErrorCodes`: `toAdminAPIErrCode`. The generic `toAPIErrorCode` lives outside the
  file, so it is kept symbolic as `Mapped(err)`.
- `ConfigBody`: `maxConfigJSONSize` (256 KiB), `io.ReadFull` as its documentation
  describes it, and the body-size classification that both configuration handlers
  repeat. The model defines it once.
- `SetConfigHandler`: the configuration update. The declarative `AcceptedConfig`
  is its reference definition of "every check before the save passed".
- `UpdateCredentialsHandler`: the credential update. It returns the in-memory
  configuration the handler leaves behind.
- `HealParams`: `extractHealInitParams`.
- `KeepAlive`: the `keepConnLive` loop. It is a function over the trace of ticks and
  the launch result, in the order the loop's `select` sees them.
- `HealHandler`: the pre-checks, and the choice between launching and polling.
- `ServerInfo`: the fan-out. The queries fill reply slots in any completion order,
  and the result is proved equal to the positional map over the peer list.
- `ServiceControl`: the mapping from a service action to a signal.

Behaviours of the code that a reader might not expect, all modelled as written:

- `UpdateCredentialsHandler` sets the new credential in memory before saving, and does
  not restore the old one when the save fails (`cmd/admin-handlers.go:645-651`).
- `SetConfigHandler` takes no lock and never replaces the in-memory configuration; it
  only saves and asks the cluster to restart (`cmd/admin-handlers.go:564-572`).
- An undecodable credential request is answered with `ErrRequestBodyParse`, not with
  the bad-configuration code (`cmd/admin-handlers.go:628-633`).
- A body whose reader itself fails with `io.ErrUnexpectedEOF` (for example, a
  truncated transfer) is treated as a body that fits, and its bytes go on to
  decryption (`cmd/admin-handlers.go:518-525`, `ConfigBody.ClassifyConfigBody`).

## Model

| member | source | states |
|---|---|---|
| ConfigBody.ReadFull | cmd/admin-handlers.go:511-512 | reading into a buffer of the given size gives no error exactly when the buffer fills; a short read returns all the bytes there were; the error is EOF only when nothing was read, ErrUnexpectedEOF when the stream ended in EOF part way (cleanly or by the reader returning EOF), and any other read error unchanged |
| ConfigBody.ClassifyConfigBody | cmd/admin-handlers.go:510-522 | too large exactly when more than 256·1024 bytes are sent; what goes on to decryption is exactly the bytes sent, and a body goes on exactly when it is within the maximum and either non-empty ending in EOF or cut short by ErrUnexpectedEOF; a failure carries the stream's own error, EOF only for an empty body |
| ConfigBody.OversizedBodyIsTooLarge | cmd/admin-handlers.go:511-517 | a body of at least 256·1024+1 bytes is too large, however its stream ends |
| ConfigBody.CompleteBodyFits | cmd/admin-handlers.go:511-525 | a non-empty body of at most 256·1024 bytes whose stream ends in EOF is passed, whole, to decryption |
| ConfigBody.ReaderEOFAfterDataFits | cmd/admin-handlers.go:511-525 | a one-byte body whose reader returns EOF with its last byte reads as ErrUnexpectedEOF and goes on to decryption |
| ConfigBody.EmptyBodyFailsWithEOF | cmd/admin-handlers.go:512-522 | an empty body whose stream ends in EOF is a read failure with EOF, not the too-large outcome |
| ErrorCodes.ToAdminAPIErrCode | cmd/admin-handlers.go:481-490 | the no-quorum admin code is returned exactly for the write-quorum error; every other error gets the generic API code |
| SetConfigHandler.SetConfig | cmd/admin-handlers.go:493-573 | every request gets exactly one reply; the restart broadcast is the only thing done after it, and only after the success reply; a request with no object layer or failed authentication does nothing else |
| SetConfigHandler.SetConfigErrorOrder | cmd/admin-handlers.go:498-562 | the first failing step alone decides the reply and the effects recorded: no object layer, failed authentication, too large, a read error (its generic code), failed decryption (bad JSON), duplicate keys (bad JSON, checked before decoding), a decode error (bad JSON with its text), a credential mismatch, a validation error (bad JSON with its text) |
| SetConfigHandler.SetConfigSavesOnlyAcceptedConfig | cmd/admin-handlers.go:510-567 | a save is attempted exactly when size, decryption, duplicate keys, decoding, environment credentials and validation all pass; the effects are then exactly the read, decryption under the current secret key, the duplicate-key check and decoding of the plaintext, validation and the save of the accepted configuration, in that order, and the save is the last step before the reply |
| SetConfigHandler.SetConfigRestartsOnlyAfterSave | cmd/admin-handlers.go:564-572 | the success reply and the restart broadcast after it happen exactly when the accepted configuration is saved without error |
| SetConfigHandler.SetConfigSaveFailure | cmd/admin-handlers.go:564-567 | a failed save replies with the admin mapping of its error (no quorum for the write-quorum error) and broadcasts nothing |
| SetConfigHandler.SetConfigOversizedBody | cmd/admin-handlers.go:510-517 | an admitted request with a body over the maximum only reads the body and is refused as too large; no decryption is attempted |
| SetConfigHandler.SetConfigTooLargeIff | cmd/admin-handlers.go:510-522 | for an admitted request the too-large reply is given exactly when the body is longer than 256·1024 bytes |
| SetConfigHandler.SetConfigDecryptsFittingBody | cmd/admin-handlers.go:510-525 | a non-empty body within the maximum whose stream ends in EOF is decrypted, whole, with the current secret key, right after the read |
| SetConfigHandler.SetConfigEmptyBody | cmd/admin-handlers.go:512-522 | an empty body whose stream ends in EOF is refused with the generic code for EOF, which is not the too-large code, and nothing is decrypted |
| SetConfigHandler.SetConfigEnvironmentCredentials | cmd/admin-handlers.go:548-562 | with environment credentials a configuration carrying a different key pair is refused as a mismatch and never saved; with the identical pair it goes on to validation |
| UpdateCredentialsHandler.UpdateCredentials | cmd/admin-handlers.go:579-662 | every request gets exactly one reply and nothing after it; only the credential of the in-memory configuration can change, and only through a recorded in-memory update |
| UpdateCredentialsHandler.UpdateCredentialsErrorOrder | cmd/admin-handlers.go:584-639 | the first failing step alone decides the reply and leaves the configuration unchanged: no object layer, environment credentials (before authentication), failed authentication, too large (exactly for bodies over the maximum), a read error (its generic code), an empty body whose stream ends in EOF (the generic code for EOF), failed decryption (bad JSON), an undecodable body (request-body-parse, after the decode attempt), a refused credential (its generic code) |
| UpdateCredentialsHandler.EnvironmentCredentialsRefused | cmd/admin-handlers.go:591-596 | with environment credentials the request is refused as method-not-allowed before authentication and before reading the body; nothing changes |
| UpdateCredentialsHandler.CredentialSetBeforeSaveAndKept | cmd/admin-handlers.go:605-651 | an accepted credential is reached by the read, decryption under the current secret key, decoding and `CreateCredentials` of the decoded pair, in that order; it is set in memory immediately before the save of the configuration carrying it, and stays set whether or not the save succeeds; a failed save replies with the admin mapping of its error and does nothing else: the peers are not notified |
| UpdateCredentialsHandler.NoCredentialNoChange | cmd/admin-handlers.go:605-639 | when the request fails before a credential is accepted, the in-memory configuration is unchanged and nothing is saved |
| UpdateCredentialsHandler.PeerErrorLogs | cmd/admin-handlers.go:653-658 | one log line is written per peer whose reload failed, carrying its host and error: no failing peer is skipped or logged twice, and nothing else is logged |
| UpdateCredentialsHandler.PeerErrorsOnlyLogged | cmd/admin-handlers.go:653-661 | after a successful save the peers are told to reload and the failing ones are logged, then success is replied |
| UpdateCredentialsHandler.PeerNoticesDoNotAffectReply | cmd/admin-handlers.go:653-661 | the peers' reload answers never change the reply or the in-memory configuration |
| HealParams.ExtractHealInitParams | cmd/admin-handlers.go:273-319 | an accepted request has a well-formed target taken from the route; force-start holds exactly when its query key is present; the token is the first query value; the options are decoded from the body only when there is no token (zero otherwise); the only errors are the four checks' codes |
| HealParams.RouteVar | cmd/admin-handlers.go:279-280 | a route variable is its value in the route, and the empty string when absent |
| HealParams.FirstQueryValue | cmd/admin-handlers.go:300-302 | the client token is the first value of its query key, and the empty string when the key is absent or has no value |
| HealParams.HealParamsErrorOrder | cmd/admin-handlers.go:282-315 | missing bucket, invalid bucket name, invalid prefix and undecodable body are each reported exactly when every earlier check passes and that one fails |
| HealParams.HealParamsTargetCheck | cmd/admin-handlers.go:282-297 | the target checks fail exactly when the bucket/prefix pair is not well formed |
| HealParams.HealParamsIgnoreBodyWithToken | cmd/admin-handlers.go:307-315 | with a client token the body is never consulted: any two bodies give the same result |
| HealParams.ForceStartByPresence | cmd/admin-handlers.go:303-305 | force-start is set by the presence of its key, whatever values it has |
| KeepAlive.FinalResponse | cmd/admin-handlers.go:390-398 | the launch result is written as success JSON exactly when it has no error code, as the standard error exactly when it has a code and no text, and as the custom error with that text otherwise |
| KeepAlive.KeepConnLive | cmd/admin-handlers.go:371-402 | a reply is written exactly when some result arrives, and it is the first delivered result's; at most one write per tick plus the headers, which only ever come first and only on an unstarted loop; every other write is the keep-alive whitespace |
| KeepAlive.KeepConnLiveAfterTicks | cmd/admin-handlers.go:371-402 | after k ticks and then the result, the loop has written the headers (once, only on a first tick of an unstarted loop), k whitespace writes and the final reply, whatever comes later |
| KeepAlive.KeepConnLiveWaiting | cmd/admin-handlers.go:376-389 | while the result has not arrived, only the tick writes have been made and there is no reply |
| KeepAlive.KeepConnLiveTrace | cmd/admin-handlers.go:371-402 | for a fresh loop: headers at most once and first, exactly k whitespace writes, nothing early when k = 0, and the result is the single final reply |
| HealHandler.HealPath | cmd/admin-handlers.go:427 | the poll path is the bucket, a slash and the prefix |
| HealHandler.Heal | cmd/admin-handlers.go:334-436 | nothing happens after the reply; a request failing a pre-check gets a reply and causes no other effect |
| HealHandler.HealPrecheckOrder | cmd/admin-handlers.go:337-361 | no object layer, then authentication, then a non-erasure backend, then the parameters: the first failing check alone decides the reply |
| HealHandler.HealLaunchDispatch | cmd/admin-handlers.go:404-423 | without a token, one sequence is launched carrying the route's bucket and prefix, the request's source address, offline+online disks, the options decoded from the body and the force flag given by the query's key; nothing is polled; after k ticks the launch result is the reply |
| HealHandler.HealLaunchWaiting | cmd/admin-handlers.go:404-419 | without a token and while the launch result is pending after k ticks, the sequence built from the request has been launched, only the keep-alive writes follow, nothing is polled and no reply is written yet |
| HealHandler.HealPollDispatch | cmd/admin-handlers.go:424-435 | with a token, only the status at bucket/prefix is polled, and its error code or its JSON is the reply |
| ServerInfo.EntryFor | cmd/admin-handlers.go:242-254 | a peer's entry carries its address, and either its data with an empty error or its error text with no data |
| ServerInfo.ServerInfoReply | cmd/admin-handlers.go:229-258 | the reply has one entry per peer, entry i being peer i's |
| ServerInfo.GatherServerInfo | cmd/admin-handlers.go:229-258 | whatever order the per-peer queries complete in, each writing only its own slot, the reply is the positional one, with entry i at peer i's address |
| ServerInfo.PeerEntriesIsolated | cmd/admin-handlers.go:235-256 | changing one peer's answer changes no other peer's entry |
| ServerInfo.ServerInfoHandler | cmd/admin-handlers.go:219-271 | an authenticated request is answered with the encoded positional reply, or an internal error when encoding fails |
| ServiceControl.SignalForRoundTrip | cmd/admin-handlers.go:143-153 | the restart and stop action values map to their signals and back, and every other value maps to no signal |
| ServiceControl.SignalFor | cmd/admin-handlers.go:144-153 | a signal is chosen only for the action value that names it, and no signal for a value naming none |
| ServiceControl.ServiceStopNRestart | cmd/admin-handlers.go:128-159 | authentication failure replies with its code; an undecodable body with request-body-parse; an unknown action is refused as malformed; a signal is sent only after the success reply and only for a known action |
| ServiceControl.ServiceActionSendsSignal | cmd/admin-handlers.go:143-158 | an authenticated restart or stop request sends exactly that signal |

## Left out

- `VersionHandler`, `ServiceStatusHandler` and `GetConfigHandler`: they only marshal (and, for the configuration, encrypt) data and contain no decision logic beyond the authentication and object-layer checks modelled elsewhere.
- Concurrency: goroutines, the wait group, channels and the 10-second ticker are replaced by a completion order (fan-out) and an event trace (keep-alive); `select`'s choice between simultaneously ready cases is the order of the trace.
- `globalServerConfigMu`: the lock taken by the credential update is not modelled; each handler call is one atomic step.
- Encryption, JSON encoding and decoding, the duplicate-key check, `Validate`, `saveServerConfig`, `CreateCredentials`, `IsValidBucketName`, `IsValidObjectPrefix`, authentication, `sendServiceCmd` and the peer RPCs are foreign code: their outcomes are parameters or inputs, and their calls are recorded as effects.
- ErrorCodes.ToAdminAPIErrCode: `toAPIErrorCode` (defined in `cmd/api-errors.go`, which is not part of this model) is kept as the symbolic code `Mapped(err)`, not as a function onto the finite code set. Its contract's "no-quorum code only for the write-quorum error" therefore rests on the generic mapping never returning `ErrAdminConfigNoQuorum`; no claim is made about which generic codes coincide.
- The heal-sequence store (`LaunchNewHealSequence`, `PopHealStatusJSON`), client-token lifecycle and heal option semantics are not part of this model; their results are inputs.
- `HealOpts` is modelled with two boolean fields, and the action values "restart" and "stop" with their string values; both are defined in the `madmin` package, which is not part of this model.
- HTTP details: headers, status codes and flushing. In particular the model does not track that a launch error delivered after keep-alive headers reaches the client with status 200.
- Logging, except the per-peer credential-reload errors, whose only consequence is the log line.
- `ServerInfoData` and its statistics are a type parameter.

=== FILE: admin_types.dfy ===
/**
  The data model shared by the admin API handlers: credentials and the server
  configuration, Go errors, API error codes, HTTP replies, and the effects a
  handler performs around its single reply.
 */
module AdminTypes {
  import opened Wrappers

  newtype uint8 = x: int | 0 <= x < 256
  type Bytes = seq<uint8>

  /** The access/secret key pair the server authenticates with. */
  datatype Credential = Credential(accessKey: string, secretKey: string)

  /** The server configuration: its credential, and every other setting kept opaque. */
  datatype ServerConfig = ServerConfig(credential: Credential, settings: string)

  /**
    A Go `error` value. The sentinels the handlers compare against by identity get
    their own constructor; every other error is told apart only by its identity.
   */
  datatype GoError =
    | EOF                       // io.EOF
    | UnexpectedEOF             // io.ErrUnexpectedEOF
    | XLWriteQuorum             // errXLWriteQuorum
    | OtherError(id: string)

  /** The admin API error codes the handlers reply with. */
  datatype APIErrorCode =
    | ErrNone
    | ErrInternalError
    | ErrServerNotInitialized
    | ErrMethodNotAllowed
    | ErrRequestBodyParse
    | ErrMalformedPOSTRequest
    | ErrInvalidBucketName
    | ErrInvalidObjectName
    | ErrHealMissingBucket
    | ErrHealNotImplemented
    | ErrAdminConfigTooLarge
    | ErrAdminConfigBadJSON
    | ErrAdminConfigNoQuorum
    | ErrAdminCredentialsMismatch
      /** The code `toAPIErrorCode` assigns to `cause`; that mapping is defined outside this model. */
    | Mapped(cause: GoError)

  /** How the body stream ends after its last byte: cleanly, or with a read error. */
  datatype StreamEnd = AtEOF | Broken(err: GoError)

  /** A request body: the bytes the client sent, and how the stream ends after them. */
  datatype Body = Body(data: Bytes, end: StreamEnd)

  /** The request-side inputs of the two configuration handlers. */
  datatype AdminRequest = AdminRequest(
    objectLayerReady: bool,     // newObjectLayerFn() != nil
    auth: APIErrorCode,         // checkAdminRequestAuthType's verdict
    body: Body)

  /** The node state the handlers read: its configuration and whether credentials come from the environment. */
  datatype NodeState = NodeState(config: ServerConfig, isEnvCreds: bool)

  /** The request has a ready object layer and passed authentication. */
  predicate Admitted(req: AdminRequest)
  {
    req.objectLayerReady && req.auth == ErrNone
  }

  /** The signal sent to every peer by `sendServiceCmd`. */
  datatype ServiceSignal = ServiceRestart | ServiceStop

  /** The one HTTP reply a handler writes. */
  datatype Response =
    | SuccessJSON(body: Bytes)                                   // writeSuccessResponseJSON
    | SuccessHeadersOnly                                         // writeSuccessResponseHeadersOnly
    | ErrorJSON(code: APIErrorCode)                              // writeErrorResponseJSON
    | CustomErrorJSON(code: APIErrorCode, description: string)  // writeCustomErrorResponseJSON

  /** Heal options decoded from the heal request body. */
  datatype HealOpts = HealOpts(recursive: bool, dryRun: bool)

  /** The Go zero value of the heal options, used when the body is not decoded. */
  const ZeroHealOpts := HealOpts(false, false)

  /** The arguments a new heal sequence is created with (`newHealSequence`). */
  datatype HealSequenceRequest = HealSequenceRequest(
    bucket: string,
    objPrefix: string,
    clientAddress: string,
    numDisks: nat,
    settings: HealOpts,
    forceStart: bool)

  /** The whitespace written to keep a heal-launch connection open. */
  const KeepAliveBytes := "\n\r"

  /** An observable step a handler takes other than writing its reply, in the order taken. */
  datatype Effect =
    | ReadBody(limit: nat)                      // io.ReadFull into a buffer of `limit` bytes
    | Decrypt(password: string, ciphertext: Bytes)
    | CheckDuplicateKeys(plaintext: Bytes)
    | Unmarshal(plaintext: Bytes)
    | ValidateConfig(config: ServerConfig)
    | CreateCredentials(accessKey: string, secretKey: string)
    | SetCredential(credential: Credential)     // in-memory credential update
    | Save(config: ServerConfig)                // saveServerConfig
    | SendServiceCmd(signal: ServiceSignal)
    | LoadCredentialsOnPeers
    | LogPeerError(host: string, message: string)
    | LaunchHealSequence(sequence: HealSequenceRequest)
    | PopHealStatus(path: string, clientToken: string)
    | KeepAliveHeaders                          // common headers, JSON content type and status 200
    | KeepAliveWrite(data: string)

  /**
    Everything one handler invocation does: the effects before its reply, the reply
    itself (absent only while a keep-alive wait is still open), and the effects after it.
    There is no reply effect, so a run writes at most one reply by construction.
   */
  datatype Run = Run(pre: seq<Effect>, reply: Option<Response>, post: seq<Effect>)

  /** A handler that stops after `pre` with the error reply `resp`. */
  function Reject(pre: seq<Effect>, resp: Response): Run
  {
    Run(pre, Some(resp), [])
  }

  /** Whether a run attempted to persist any configuration. */
  ghost predicate Saves(run: Run)
  {
    exists c :: Save(c) in run.pre
  }

  /** Whether a run attempted any decryption. */
  ghost predicate Decrypts(run: Run)
  {
    exists password, data :: Decrypt(password, data) in run.pre
  }
}

=== FILE: config_body.dfy ===
/**
  Reading a configuration request body with `io.ReadFull` into a buffer one byte
  larger than the maximum, and classifying the outcome as the configuration
  handlers do before decrypting.
 */
module ConfigBody {
  import opened Wrappers
  import opened AdminTypes

  /** `maxConfigJSONSize`: 256 KiB. */
  const MaxConfigJSONSize: nat := 256 * 1024

  /** The size of the buffer the body is read into: one byte more than the maximum. */
  const ConfigBufferSize: nat := MaxConfigJSONSize + 1

  /** What `io.ReadFull` returns: the number of bytes read and the error, if any. */
  datatype ReadResult = ReadResult(n: nat, err: Option<GoError>)

  /** The error the stream reports once its bytes are exhausted: EOF for a clean end. */
  function EndError(end: StreamEnd): GoError
  {
    match end
    case AtEOF => EOF
    case Broken(e) => e
  }

  /**
    `io.ReadFull(body, buf)` with `len(buf) == size`, as the Go standard library
    documents it: it reads exactly `size` bytes or reports why it could not. An EOF
    after some bytes were read is reported as `ErrUnexpectedEOF`, whether the stream
    ended cleanly or its reader returned `io.EOF` itself.
   */
  function ReadFull(body: Body, size: nat): (r: ReadResult)
    ensures r.n <= size && r.n <= |body.data|
    // the error is nil exactly when the buffer was filled
    ensures r.err.None? <==> r.n == size
    ensures r.err.None? <==> |body.data| >= size
    // a short read returns everything there was
    ensures r.err.Some? ==> r.n == |body.data|
    // the error is EOF only if nothing was read; a stream ending in EOF part way gives ErrUnexpectedEOF
    ensures r.err == Some(EOF) ==> r.n == 0
    ensures EndError(body.end) == EOF && r.err.Some? ==> (r.err == Some(EOF) <==> r.n == 0)
    ensures EndError(body.end) == EOF && r.err.Some? ==> (r.err == Some(UnexpectedEOF) <==> r.n > 0)
    // any other read error is passed through unchanged
    ensures EndError(body.end) != EOF && r.err.Some? ==> r.err == Some(EndError(body.end))
  {
    if |body.data| >= size then ReadResult(size, None)
    else
      var e := EndError(body.end);
      if e == EOF && |body.data| > 0 then ReadResult(|body.data|, Some(UnexpectedEOF))
      else ReadResult(|body.data|, Some(e))
  }

  /** How a configuration handler proceeds after reading the body. */
  datatype BodyClass =
    | TooLarge                   // more than the maximum was available
    | ReadFailed(err: GoError)   // the read failed for a reason other than a short body
    | Fits(data: Bytes)          // the body fits: these bytes go on to decryption

  /**
    The body-size classification both configuration handlers perform: a filled
    buffer means too large, `ErrUnexpectedEOF` means a body that fits, and any
    other error (including EOF on an empty body) is a failure.
   */
  function ClassifyConfigBody(body: Body): (c: BodyClass)
    // too large exactly when more than the maximum was sent
    ensures c == TooLarge <==> |body.data| > MaxConfigJSONSize
    // what goes on to decryption is exactly the bytes sent, and a body goes on exactly when it is
    // within the maximum and either is non-empty and ends in EOF, or its reader reported ErrUnexpectedEOF
    ensures c.Fits? ==> c.data == body.data
    ensures c.Fits? <==>
      && |body.data| <= MaxConfigJSONSize
      && ((EndError(body.end) == EOF && |body.data| > 0) || EndError(body.end) == UnexpectedEOF)
    // a failure reports the stream's own error, which is EOF only for an empty body
    ensures c.ReadFailed? ==> c.err == EndError(body.end) && c.err != UnexpectedEOF
    ensures c.ReadFailed? && c.err == EOF ==> body.data == []
  {
    var r := ReadFull(body, ConfigBufferSize);
    if r.err.None? then TooLarge
    else if r.err.value != UnexpectedEOF then ReadFailed(r.err.value)
    else Fits(body.data[..r.n])
  }

  /** A body longer than the maximum is too large, however its stream ends. */
  lemma OversizedBodyIsTooLarge(body: Body)
    requires |body.data| >= MaxConfigJSONSize + 1
    ensures ClassifyConfigBody(body) == TooLarge
  {
  }

  /**
    A non-empty body within the maximum whose stream ends in EOF goes, whole, to
    decryption, whether the stream ended cleanly or its reader returned `io.EOF`.
   */
  lemma CompleteBodyFits(body: Body)
    requires 0 < |body.data| <= MaxConfigJSONSize
    requires EndError(body.end) == EOF
    ensures ClassifyConfigBody(body) == Fits(body.data)
  {
  }

  /** An empty body whose stream ends in EOF is rejected with EOF, which is not the too-large outcome. */
  lemma EmptyBodyFailsWithEOF(body: Body)
    requires body.data == []
    requires EndError(body.end) == EOF
    ensures ClassifyConfigBody(body) == ReadFailed(EOF)
    ensures ClassifyConfigBody(body) != TooLarge
  {
  }

  /** A one-byte body whose reader returns `io.EOF` with the last byte is read as a short body and fits. */
  lemma ReaderEOFAfterDataFits()
    ensures ReadFull(Body([1], Broken(EOF)), ConfigBufferSize) == ReadResult(1, Some(UnexpectedEOF))
    ensures ClassifyConfigBody(Body([1], Broken(EOF))) == Fits([1])
  {
  }
}

=== FILE: error_codes.dfy ===
/** Mapping Go errors to admin API error codes. */
module ErrorCodes {
  import opened AdminTypes

  /** `toAPIErrorCode`: defined outside this model, so its result is kept symbolic. */
  function ToAPIErrorCode(err: GoError): APIErrorCode
  {
    Mapped(err)
  }

  /**
    `toAdminAPIErrCode`: a write-quorum failure gets its own admin code; every other
    error is mapped as the generic API mapping does.
   */
  function ToAdminAPIErrCode(err: GoError): (code: APIErrorCode)
    ensures code == ErrAdminConfigNoQuorum <==> err == XLWriteQuorum
    ensures err != XLWriteQuorum ==> code == ToAPIErrorCode(err)
  {
    match err
    case XLWriteQuorum => ErrAdminConfigNoQuorum
    case _ => ToAPIErrorCode(err)
  }
}

=== FILE: heal_handler.dfy ===
/**
  `HealHandler`: after the object-layer, authentication and erasure-backend checks
  and parameter extraction, a request without a client token launches a new heal
  sequence and keeps the connection alive until the launch result arrives; a request
  with a token polls the status of the sequence at `bucket/prefix`.
 */
module HealHandler {
  import opened Wrappers
  import opened AdminTypes
  import opened HealParams
  import opened KeepAlive

  /** The request-side inputs of a heal request. */
  datatype HealRequest = HealRequest(
    objectLayerReady: bool,            // newObjectLayerFn() != nil
    auth: APIErrorCode,                // checkAdminRequestAuthType's verdict
    vars: map<string, string>,         // route variables
    query: map<string, seq<string>>,   // query parameters
    body: Option<HealOpts>,            // what decoding the body would give
    sourceIP: string)

  /** What `PopHealStatusJSON` returns. */
  datatype PopResult = PopResult(respBytes: Bytes, errCode: APIErrorCode)

  /** The server side of a heal request: backend kind, disk counts, name checks and the heal-state outcomes. */
  datatype HealBackend = HealBackend(
    isXL: bool,
    onlineDisks: nat,
    offlineDisks: nat,
    names: NameValidators,
    launchTrace: seq<LiveEvent>,       // ticks and the launch result, in the order the loop sees them
    pop: PopResult)

  /** The request passes the three pre-checks that precede parameter extraction. */
  predicate HealAdmitted(req: HealRequest, backend: HealBackend)
  {
    req.objectLayerReady && req.auth == ErrNone && backend.isXL
  }

  /** The path a status poll is keyed by. */
  function HealPath(bucket: string, objPrefix: string): (path: string)
    ensures |path| == |bucket| + 1 + |objPrefix|
    ensures path[..|bucket|] == bucket && path[|bucket|] == '/' && path[|bucket| + 1..] == objPrefix
  {
    bucket + "/" + objPrefix
  }

  /** The handler, as a function of the request and the server-side outcomes. */
  function Heal(req: HealRequest, backend: HealBackend): (run: Run)
    ensures run.post == []
    ensures !HealAdmitted(req, backend) ==> run.pre == [] && run.reply.Some?
  {
    if !req.objectLayerReady then Reject([], ErrorJSON(ErrServerNotInitialized))
    else if req.auth != ErrNone then Reject([], ErrorJSON(req.auth))
    else if !backend.isXL then Reject([], ErrorJSON(ErrHealNotImplemented))
    else match ExtractHealInitParams(req.vars, req.query, req.body, backend.names)
      case Err(code) => Reject([], ErrorJSON(code))
      case Ok(p) =>
        if p.clientToken == "" then
          var live := KeepConnLive(backend.launchTrace, false);
          var numDisks := backend.offlineDisks + backend.onlineDisks;
          var sequence := HealSequenceRequest(p.bucket, p.objPrefix, req.sourceIP, numDisks, p.opts, p.forceStart);
          Run([LaunchHealSequence(sequence)] + live.writes, live.reply, [])
        else
          var pop := backend.pop;
          var resp := if pop.errCode != ErrNone then ErrorJSON(pop.errCode) else SuccessJSON(pop.respBytes);
          Run([PopHealStatus(HealPath(p.bucket, p.objPrefix), p.clientToken)], Some(resp), [])
  }

  /**
    The pre-checks run in a fixed order and each failure alone decides the reply:
    no object layer, then authentication, then a non-erasure backend, then the parameters.
   */
  lemma HealPrecheckOrder(req: HealRequest, backend: HealBackend)
    ensures !req.objectLayerReady ==> Heal(req, backend) == Reject([], ErrorJSON(ErrServerNotInitialized))
    ensures req.objectLayerReady && req.auth != ErrNone ==> Heal(req, backend) == Reject([], ErrorJSON(req.auth))
    ensures req.objectLayerReady && req.auth == ErrNone && !backend.isXL ==>
      Heal(req, backend) == Reject([], ErrorJSON(ErrHealNotImplemented))
    ensures HealAdmitted(req, backend) && ExtractHealInitParams(req.vars, req.query, req.body, backend.names).Err? ==>
      Heal(req, backend) == Reject([], ErrorJSON(ExtractHealInitParams(req.vars, req.query, req.body, backend.names).error))
  {
  }

  /**
    Without a client token a new sequence is launched, carrying the route's bucket and
    prefix, the request's source address, the total of offline and online disks, the
    options decoded from the body and the force flag given by the query; nothing is
    polled, and after `k` ticks and the launch result the reply is that result.
   */
  lemma HealLaunchDispatch(req: HealRequest, backend: HealBackend, p: HealInitParams, k: nat, hr: HealResp, later: seq<LiveEvent>)
    requires HealAdmitted(req, backend)
    requires ExtractHealInitParams(req.vars, req.query, req.body, backend.names) == Ok(p)
    requires p.clientToken == ""
    requires backend.launchTrace == Ticks(k) + [Delivered(hr)] + later
    ensures req.body.Some?
    ensures var run := Heal(req, backend);
      var launched := HealSequenceRequest(
        RouteVar(req.vars, BucketKey),
        RouteVar(req.vars, PrefixKey),
        req.sourceIP,
        backend.offlineDisks + backend.onlineDisks,
        req.body.value,
        ForceStartKey in req.query);
      && run.pre == [LaunchHealSequence(launched)] + TickWrites(k, false)
      && run.reply == Some(FinalResponse(hr))
    ensures forall path, token :: PopHealStatus(path, token) !in Heal(req, backend).pre
  {
    KeepConnLiveAfterTicks(k, hr, later, false);
    assert KeepConnLive(backend.launchTrace, false) == LiveRun(TickWrites(k, false), Some(FinalResponse(hr)));
    assert req.body == Some(p.opts);
  }

  /**
    Without a client token, while the launch result has not arrived after `k` ticks, the
    sequence has been launched and only the keep-alive writes follow: nothing is polled
    and no reply has been written yet.
   */
  lemma HealLaunchWaiting(req: HealRequest, backend: HealBackend, p: HealInitParams, k: nat)
    requires HealAdmitted(req, backend)
    requires ExtractHealInitParams(req.vars, req.query, req.body, backend.names) == Ok(p)
    requires p.clientToken == ""
    requires backend.launchTrace == Ticks(k)
    ensures req.body.Some?
    ensures var launched := HealSequenceRequest(
        RouteVar(req.vars, BucketKey),
        RouteVar(req.vars, PrefixKey),
        req.sourceIP,
        backend.offlineDisks + backend.onlineDisks,
        req.body.value,
        ForceStartKey in req.query);
      Heal(req, backend) == Run([LaunchHealSequence(launched)] + TickWrites(k, false), None, [])
  {
    KeepConnLiveWaiting(k, false);
    assert KeepConnLive(backend.launchTrace, false) == LiveRun(TickWrites(k, false), None);
    assert req.body == Some(p.opts);
  }

  /**
    With a client token the sequence at `bucket/prefix` is polled, nothing is launched,
    and the poll result is the reply: its error code if any, otherwise its JSON.
   */
  lemma HealPollDispatch(req: HealRequest, backend: HealBackend, p: HealInitParams)
    requires HealAdmitted(req, backend)
    requires ExtractHealInitParams(req.vars, req.query, req.body, backend.names) == Ok(p)
    requires p.clientToken != ""
    ensures Heal(req, backend).pre == [PopHealStatus(p.bucket + "/" + p.objPrefix, p.clientToken)]
    ensures backend.pop.errCode != ErrNone ==> Heal(req, backend).reply == Some(ErrorJSON(backend.pop.errCode))
    ensures backend.pop.errCode == ErrNone ==> Heal(req, backend).reply == Some(SuccessJSON(backend.pop.respBytes))
  {
  }
}

=== FILE: heal_params.dfy ===
/**
  `extractHealInitParams`: the bucket and prefix of a heal request come from the
  route variables, the client token and force-start flag from the query, and the
  heal options from the body, which is decoded only for a request without a token.
 */
module HealParams {
  import opened Wrappers
  import opened AdminTypes

  /** The route variable and query keys the heal API reads. */
  const BucketKey := "bucket"
  const PrefixKey := "prefix"
  const ClientTokenKey := "clientToken"
  const ForceStartKey := "forceStart"

  /** The name checks the parameters are validated with (`IsValidBucketName`, `IsValidObjectPrefix`). */
  datatype NameValidators = NameValidators(validBucketName: string -> bool, validObjectPrefix: string -> bool)

  /** The parameters of a valid heal request. */
  datatype HealInitParams = HealInitParams(
    bucket: string,
    objPrefix: string,
    opts: HealOpts,
    clientToken: string,
    forceStart: bool)

  /** A route variable, or "" when it is absent (Go's zero value for a missing map key). */
  function RouteVar(vars: map<string, string>, key: string): (v: string)
    ensures key in vars ==> v == vars[key]
    ensures key !in vars ==> v == ""
  {
    if key in vars then vars[key] else ""
  }

  /** The first value of a query parameter, or "" when it has none. */
  function FirstQueryValue(query: map<string, seq<string>>, key: string): (v: string)
    ensures key in query && |query[key]| > 0 ==> v == query[key][0]
    ensures (key !in query || query[key] == []) ==> v == ""
  {
    if key in query && |query[key]| > 0 then query[key][0] else ""
  }

  /**
    A heal target is well formed when a prefix comes with a bucket, a given bucket
    has a valid name, and the prefix (possibly empty) is a valid object prefix.
   */
  predicate ValidHealTarget(bucket: string, objPrefix: string, names: NameValidators)
  {
    && (bucket == "" ==> objPrefix == "")
    && (bucket != "" ==> names.validBucketName(bucket))
    && names.validObjectPrefix(objPrefix)
  }

  /**
    The parameter extraction. `body` is what decoding the request body would give
    (None: it does not decode); it is consulted only when no client token is given.
   */
  function ExtractHealInitParams(
    vars: map<string, string>,
    query: map<string, seq<string>>,
    body: Option<HealOpts>,
    names: NameValidators): (r: Result<HealInitParams, APIErrorCode>)
    ensures r.Ok? ==> ValidHealTarget(r.value.bucket, r.value.objPrefix, names)
    ensures r.Ok? ==> r.value.bucket == RouteVar(vars, BucketKey) && r.value.objPrefix == RouteVar(vars, PrefixKey)
    ensures r.Ok? ==> (r.value.forceStart <==> ForceStartKey in query)
    ensures r.Ok? ==> r.value.clientToken == FirstQueryValue(query, ClientTokenKey)
    ensures r.Ok? && r.value.clientToken == "" ==> body == Some(r.value.opts)
    ensures r.Ok? && r.value.clientToken != "" ==> r.value.opts == ZeroHealOpts
    ensures r.Err? ==> r.error in {ErrHealMissingBucket, ErrInvalidBucketName, ErrInvalidObjectName, ErrRequestBodyParse}
  {
    var bucket := RouteVar(vars, BucketKey);
    var objPrefix := RouteVar(vars, PrefixKey);
    if bucket == "" && objPrefix != "" then Err(ErrHealMissingBucket)
    else if bucket != "" && !names.validBucketName(bucket) then Err(ErrInvalidBucketName)
    else if !names.validObjectPrefix(objPrefix) then Err(ErrInvalidObjectName)
    else
      var clientToken := FirstQueryValue(query, ClientTokenKey);
      var forceStart := ForceStartKey in query;
      if clientToken != "" then Ok(HealInitParams(bucket, objPrefix, ZeroHealOpts, clientToken, forceStart))
      else match body
        case None => Err(ErrRequestBodyParse)
        case Some(opts) => Ok(HealInitParams(bucket, objPrefix, opts, clientToken, forceStart))
  }

  /**
    The target checks come first and in a fixed order: a missing bucket, then an invalid
    bucket name, then an invalid prefix; the body error is reported only for a valid target.
   */
  lemma HealParamsErrorOrder(vars: map<string, string>, query: map<string, seq<string>>, body: Option<HealOpts>, names: NameValidators)
    ensures var bucket := RouteVar(vars, BucketKey);
      var objPrefix := RouteVar(vars, PrefixKey);
      var r := ExtractHealInitParams(vars, query, body, names);
      && (r == Err(ErrHealMissingBucket) <==> bucket == "" && objPrefix != "")
      && (r == Err(ErrInvalidBucketName) <==> bucket != "" && !names.validBucketName(bucket))
      && (r == Err(ErrInvalidObjectName) <==>
            !(bucket == "" && objPrefix != "") && !(bucket != "" && !names.validBucketName(bucket))
            && !names.validObjectPrefix(objPrefix))
      && (r == Err(ErrRequestBodyParse) <==>
            ValidHealTarget(bucket, objPrefix, names) && FirstQueryValue(query, ClientTokenKey) == "" && body.None?)
  {
  }

  /** The target checks fail exactly when the target is not well formed. */
  lemma HealParamsTargetCheck(vars: map<string, string>, query: map<string, seq<string>>, body: Option<HealOpts>, names: NameValidators)
    ensures var r := ExtractHealInitParams(vars, query, body, names);
      (r.Err? && r.error != ErrRequestBodyParse) <==> !ValidHealTarget(RouteVar(vars, BucketKey), RouteVar(vars, PrefixKey), names)
  {
  }

  /** With a client token the body is not consulted: any two bodies give the same result. */
  lemma HealParamsIgnoreBodyWithToken(vars: map<string, string>, query: map<string, seq<string>>, body1: Option<HealOpts>, body2: Option<HealOpts>, names: NameValidators)
    requires FirstQueryValue(query, ClientTokenKey) != ""
    ensures ExtractHealInitParams(vars, query, body1, names) == ExtractHealInitParams(vars, query, body2, names)
  {
  }

  /** The force-start flag is set by the presence of its key, whatever its values (even none). */
  lemma ForceStartByPresence(vars: map<string, string>, query: map<string, seq<string>>, values: seq<string>, body: Option<HealOpts>, names: NameValidators)
    requires ExtractHealInitParams(vars, query[ForceStartKey := values], body, names).Ok?
    ensures ExtractHealInitParams(vars, query[ForceStartKey := values], body, names).value.forceStart
  {
  }
}

=== FILE: keep_alive.dfy ===
/**
  `keepConnLive`: while a heal launch is pending, every ticker tick writes
  whitespace (the first tick also writes the 200 headers); when the launch result
  arrives it is written as the final reply and the loop ends. The ticker and the
  result channel are replaced by the trace of events in the order the loop's
  select observes them.
 */
module KeepAlive {
  import opened Wrappers
  import opened AdminTypes

  /** The launch result sent on the response channel. */
  datatype HealResp = HealResp(respBytes: Bytes, errCode: APIErrorCode, errBody: string)

  /** What the loop's select receives: a tick, or the launch result. */
  datatype LiveEvent = Tick | Delivered(resp: HealResp)

  /** The writes made while waiting, and the final reply if the result arrived. */
  datatype LiveRun = LiveRun(writes: seq<Effect>, reply: Option<Response>)

  /**
    How the launch result is written: success JSON when there is no error code, the
    standard error reply when there is no error text, the custom error reply otherwise.
   */
  function FinalResponse(hr: HealResp): (resp: Response)
    ensures resp.SuccessJSON? <==> hr.errCode == ErrNone
    ensures resp.SuccessJSON? ==> resp.body == hr.respBytes
    ensures resp.ErrorJSON? <==> hr.errCode != ErrNone && hr.errBody == ""
    ensures resp.CustomErrorJSON? <==> hr.errCode != ErrNone && hr.errBody != ""
    ensures !resp.SuccessHeadersOnly?
    ensures !resp.SuccessJSON? ==> resp.code == hr.errCode
    ensures resp.CustomErrorJSON? ==> resp.description == hr.errBody
  {
    if hr.errCode == ErrNone then SuccessJSON(hr.respBytes)
    else if hr.errBody == "" then ErrorJSON(hr.errCode)
    else CustomErrorJSON(hr.errCode, hr.errBody)
  }

  /** The loop, from a state where the headers have (`started`) or have not been written. */
  function KeepConnLive(trace: seq<LiveEvent>, started: bool): (r: LiveRun)
    // a reply is written exactly when the result arrives, and it is the first result's
    ensures r.reply.None? <==> forall i :: 0 <= i < |trace| ==> trace[i].Tick?
    ensures r.reply.Some? ==>
      exists i :: 0 <= i < |trace| && trace[i].Delivered? && r.reply == Some(FinalResponse(trace[i].resp))
        && forall j :: 0 <= j < i ==> trace[j].Tick?
    // at most one write per tick, plus the headers; the headers only ever come first, and only once
    ensures |r.writes| <= |trace| + (if started then 0 else 1)
    ensures |r.writes| > 0 ==> r.writes[0] == (if started then KeepAliveWrite(KeepAliveBytes) else KeepAliveHeaders)
    ensures forall i :: 0 < i < |r.writes| ==> r.writes[i] == KeepAliveWrite(KeepAliveBytes)
    decreases |trace|
  {
    if |trace| == 0 then LiveRun([], None)
    else match trace[0]
      case Tick =>
        var headers := if started then [] else [KeepAliveHeaders];
        var rest := KeepConnLive(trace[1..], true);
        LiveRun(headers + [KeepAliveWrite(KeepAliveBytes)] + rest.writes, rest.reply)
      case Delivered(hr) => LiveRun([], Some(FinalResponse(hr)))
  }

  /** A trace of `k` ticks. */
  function Ticks(k: nat): (t: seq<LiveEvent>)
    ensures |t| == k && forall i :: 0 <= i < k ==> t[i] == Tick
  {
    seq(k, _ => Tick)
  }

  /** `k` keep-alive whitespace writes. */
  function Whitespace(k: nat): (w: seq<Effect>)
    ensures |w| == k && forall i :: 0 <= i < k ==> w[i] == KeepAliveWrite(KeepAliveBytes)
  {
    seq(k, _ => KeepAliveWrite(KeepAliveBytes))
  }

  /** The writes made for `k` ticks: the headers once, on the first tick of an unstarted loop, then one whitespace per tick. */
  function TickWrites(k: nat, started: bool): seq<Effect>
  {
    (if k > 0 && !started then [KeepAliveHeaders] else []) + Whitespace(k)
  }

  /**
    After `k` ticks and then the result, the loop has written exactly the tick writes
    and then the final reply, whatever events would have come later.
   */
  lemma {:induction false} KeepConnLiveAfterTicks(k: nat, hr: HealResp, later: seq<LiveEvent>, started: bool)
    ensures KeepConnLive(Ticks(k) + [Delivered(hr)] + later, started) == LiveRun(TickWrites(k, started), Some(FinalResponse(hr)))
  {
    var trace := Ticks(k) + [Delivered(hr)] + later;
    if k == 0 {
      assert trace[0] == Delivered(hr);
    } else {
      assert trace[0] == Tick;
      assert trace[1..] == Ticks(k - 1) + [Delivered(hr)] + later;
      KeepConnLiveAfterTicks(k - 1, hr, later, true);
      assert Whitespace(k) == [KeepAliveWrite(KeepAliveBytes)] + Whitespace(k - 1);
    }
  }

  /** While the result has not arrived, the loop has written only the tick writes and no reply. */
  lemma {:induction false} KeepConnLiveWaiting(k: nat, started: bool)
    ensures KeepConnLive(Ticks(k), started) == LiveRun(TickWrites(k, started), None)
  {
    if k > 0 {
      assert Ticks(k)[1..] == Ticks(k - 1);
      KeepConnLiveWaiting(k - 1, true);
      assert Whitespace(k) == [KeepAliveWrite(KeepAliveBytes)] + Whitespace(k - 1);
    }
  }

  /**
    For a fresh loop that sees `k` ticks and then the result: the headers are written at
    most once, as the first write and only if there was a tick; exactly `k` whitespace
    writes follow; with no tick nothing is written early; and the result is the one reply.
   */
  lemma KeepConnLiveTrace(k: nat, hr: HealResp, later: seq<LiveEvent>)
    ensures var r := KeepConnLive(Ticks(k) + [Delivered(hr)] + later, false);
      && r.reply == Some(FinalResponse(hr))
      && (k == 0 ==> r.writes == [])
      && (k > 0 ==> |r.writes| == k + 1 && r.writes[0] == KeepAliveHeaders)
      && (forall i :: 0 < i < |r.writes| ==> r.writes[i] == KeepAliveWrite(KeepAliveBytes))
  {
    KeepConnLiveAfterTicks(k, hr, later, false);
  }
}

=== FILE: server_info.dfy ===
/**
  `ServerInfoHandler`: every peer is asked for its server information concurrently;
  each query writes only its own slot of the reply, which therefore lists the peers
  in peer-list order whatever order the queries complete in.
 */
module ServerInfo {
  import opened Wrappers
  import opened AdminTypes

  /** A peer and what its `ServerInfo` call returned: the data, or the error text. */
  datatype PeerAnswer<D> = PeerAnswer(addr: string, answer: Result<D, string>)

  /** One slot of the reply (`ServerInfo`): an error text, the peer address, and the data if any. */
  datatype InfoEntry<D> = InfoEntry(error: string, addr: string, data: Option<D>)

  /** The zero value a reply slot holds before its peer's query writes it. */
  function ZeroEntry<D>(): InfoEntry<D>
  {
    InfoEntry("", "", None)
  }

  /** The entry a peer's query leaves in its slot. */
  function EntryFor<D>(peer: PeerAnswer<D>): (e: InfoEntry<D>)
    ensures e.addr == peer.addr
    ensures peer.answer.Ok? ==> e.data == Some(peer.answer.value) && e.error == ""
    ensures peer.answer.Err? ==> e.data.None? && e.error == peer.answer.error
  {
    var initialized := InfoEntry("", peer.addr, None);
    match peer.answer
    case Err(msg) => initialized.(error := msg)
    case Ok(d) => initialized.(data := Some(d))
  }

  /** The assembled reply: one entry per peer, in peer-list order. */
  function ServerInfoReply<D>(peers: seq<PeerAnswer<D>>): (reply: seq<InfoEntry<D>>)
    ensures |reply| == |peers|
    ensures forall i :: 0 <= i < |peers| ==> reply[i] == EntryFor(peers[i])
  {
    seq(|peers|, i requires 0 <= i < |peers| => EntryFor(peers[i]))
  }

  /**
    The fan-out run sequentially: the queries complete in the order `completion` lists
    peer indices, each writing its own slot. Every peer is queried (the wait group
    waits for all); whatever the completion order, the reply is the positional one.
   */
  method GatherServerInfo<D>(peers: seq<PeerAnswer<D>>, completion: seq<nat>) returns (reply: seq<InfoEntry<D>>)
    requires forall j :: 0 <= j < |completion| ==> completion[j] < |peers|
    requires forall i :: 0 <= i < |peers| ==> i in completion
    ensures reply == ServerInfoReply(peers)
    ensures forall i :: 0 <= i < |peers| ==> reply[i].addr == peers[i].addr
  {
    reply := seq(|peers|, _ => ZeroEntry());
    var k := 0;
    while k < |completion|
      invariant 0 <= k <= |completion|
      invariant |reply| == |peers|
      invariant forall i :: 0 <= i < |peers| && i in completion[..k] ==> reply[i] == EntryFor(peers[i])
      invariant forall i :: 0 <= i < |peers| && i !in completion[..k] ==> reply[i] == ZeroEntry()
    {
      var idx := completion[k];
      reply := reply[idx := InfoEntry("", peers[idx].addr, None)];
      match peers[idx].answer {
        case Err(msg) =>
          reply := reply[idx := reply[idx].(error := msg)];
        case Ok(d) =>
          reply := reply[idx := reply[idx].(data := Some(d))];
      }
      assert completion[..k + 1] == completion[..k] + [idx];
      k := k + 1;
    }
    assert completion[..k] == completion;
  }

  /** One peer's answer never affects another peer's entry. */
  lemma PeerEntriesIsolated<D>(peers: seq<PeerAnswer<D>>, j: nat, other: Result<D, string>)
    requires j < |peers|
    ensures var changed := peers[j := peers[j].(answer := other)];
      forall i :: 0 <= i < |peers| && i != j ==> ServerInfoReply(changed)[i] == ServerInfoReply(peers)[i]
  {
  }

  /** The handler: the authentication verdict, the peers' answers, and the JSON encoding of the reply (None: it failed). */
  function ServerInfoHandler<D>(auth: APIErrorCode, peers: seq<PeerAnswer<D>>, marshal: seq<InfoEntry<D>> -> Option<Bytes>): (run: Run)
    ensures run.pre == [] && run.post == []
    ensures auth != ErrNone ==> run.reply == Some(ErrorJSON(auth))
    ensures auth == ErrNone && marshal(ServerInfoReply(peers)).Some? ==>
      run.reply == Some(SuccessJSON(marshal(ServerInfoReply(peers)).value))
    ensures auth == ErrNone && marshal(ServerInfoReply(peers)).None? ==> run.reply == Some(ErrorJSON(ErrInternalError))
  {
    if auth != ErrNone then Reject([], ErrorJSON(auth))
    else match marshal(ServerInfoReply(peers))
      case None => Reject([], ErrorJSON(ErrInternalError))
      case Some(json) => Run([], Some(SuccessJSON(json)), [])
  }
}

=== FILE: service_control.dfy ===
/**
  `ServiceStopNRestartHandler`: the requested action is mapped to a service signal;
  a known action is acknowledged and then sent to every peer, anything else is
  refused as a malformed request and no signal is sent.
 */
module ServiceControl {
  import opened Wrappers
  import opened AdminTypes

  /** The action values of the service request body. */
  const RestartAction := "restart"
  const StopAction := "stop"

  /** The signal an action value asks for, if it is a known one. */
  function SignalFor(action: string): (sig: Option<ServiceSignal>)
    // only the action value of a signal asks for it
    ensures sig.Some? ==> action == ActionFor(sig.value)
    ensures sig.None? ==> forall s: ServiceSignal :: action != ActionFor(s)
  {
    if action == RestartAction then Some(ServiceRestart)
    else if action == StopAction then Some(ServiceStop)
    else None
  }

  /** The action value that asks for a signal. */
  function ActionFor(sig: ServiceSignal): string
  {
    match sig
    case ServiceRestart => RestartAction
    case ServiceStop => StopAction
  }

  /** Action values and signals correspond one to one: the mapping accepts exactly the two action values. */
  lemma SignalForRoundTrip(action: string, sig: ServiceSignal)
    ensures SignalFor(ActionFor(sig)) == Some(sig)
    ensures SignalFor(action) == Some(sig) <==> action == ActionFor(sig)
    ensures SignalFor(action).None? <==> action != RestartAction && action != StopAction
  {
  }

  /** The handler: the authentication verdict and the decoded action (None: the body did not decode). */
  function ServiceStopNRestart(auth: APIErrorCode, action: Option<string>): (run: Run)
    ensures run.pre == [] && run.reply.Some?
    // authentication first, then decoding, then the action
    ensures auth != ErrNone ==> run.reply == Some(ErrorJSON(auth)) && run.post == []
    ensures auth == ErrNone && action.None? ==> run.reply == Some(ErrorJSON(ErrRequestBodyParse)) && run.post == []
    // a signal is sent only after the success reply, and only for a known action
    ensures run.post != [] <==> run.reply == Some(SuccessHeadersOnly)
    ensures run.post != [] ==>
      auth == ErrNone && action.Some? && SignalFor(action.value).Some?
      && run.post == [SendServiceCmd(SignalFor(action.value).value)]
    ensures auth == ErrNone && action.Some? && SignalFor(action.value).None? ==>
      run.reply == Some(ErrorJSON(ErrMalformedPOSTRequest)) && run.post == []
  {
    if auth != ErrNone then Reject([], ErrorJSON(auth))
    else match action
      case None => Reject([], ErrorJSON(ErrRequestBodyParse))
      case Some(a) =>
        match SignalFor(a)
        case None => Reject([], ErrorJSON(ErrMalformedPOSTRequest))
        case Some(sig) => Run([], Some(SuccessHeadersOnly), [SendServiceCmd(sig)])
  }

  /** A restart or stop request that passes authentication sends exactly that signal to the peers. */
  lemma ServiceActionSendsSignal(sig: ServiceSignal)
    ensures ServiceStopNRestart(ErrNone, Some(ActionFor(sig))) == Run([], Some(SuccessHeadersOnly), [SendServiceCmd(sig)])
  {
  }
}

=== FILE: set_config.dfy ===
/**
  `SetConfigHandler`: replace the server configuration. The body is size-checked,
  decrypted with the current secret key, checked for duplicate JSON keys, parsed,
  checked against environment-fixed credentials, validated and saved; only a
  successful save is answered with success and followed by a cluster restart.
  The in-memory configuration is never swapped by this handler.
 */
module SetConfigHandler {
  import opened Wrappers
  import opened AdminTypes
  import opened ErrorCodes
  import opened ConfigBody

  /** The collaborators of the configuration update, as their outcomes on given inputs. */
  datatype ConfigServices = ConfigServices(
    decrypt: (string, Bytes) -> Option<Bytes>,    // None: decryption failed
    hasDuplicateKeys: Bytes -> bool,              // quick.CheckDuplicateKeys reported an error
    unmarshal: Bytes -> Result<ServerConfig, string>,
    validate: ServerConfig -> Option<string>,     // Some(message): config.Validate failed
    save: ServerConfig -> Option<GoError>)        // Some(err): saveServerConfig failed

  /** Environment-sourced credentials admit only a configuration carrying the same pair. */
  predicate CredentialAllowed(node: NodeState, config: ServerConfig)
  {
    !node.isEnvCreds || config.credential == node.config.credential
  }

  /**
    The configuration a request carries when it passes every check that precedes the
    save: admitted, a body within the maximum, which decrypts under the current secret
    key to JSON with no duplicate keys, parses, respects environment credentials and
    validates. None when any of these fails.
   */
  function AcceptedConfig(req: AdminRequest, node: NodeState, svc: ConfigServices): Option<ServerConfig>
  {
    var cls := ClassifyConfigBody(req.body);
    var plain := if cls.Fits? then svc.decrypt(node.config.credential.secretKey, cls.data) else None;
    var parsed := if plain.Some? && !svc.hasDuplicateKeys(plain.value) then Some(svc.unmarshal(plain.value)) else None;
    if Admitted(req) && parsed.Some? && parsed.value.Ok?
       && CredentialAllowed(node, parsed.value.value) && svc.validate(parsed.value.value).None?
    then Some(parsed.value.value)
    else None
  }

  /** The handler, as a function of the request, the node state and the collaborators' outcomes. */
  function SetConfig(req: AdminRequest, node: NodeState, svc: ConfigServices): (run: Run)
    ensures run.reply.Some?
    // the restart broadcast is the only thing ever done after the reply
    ensures run.post == [] || run.post == [SendServiceCmd(ServiceRestart)]
    ensures run.post != [] <==> run.reply == Some(SuccessHeadersOnly)
    // nothing at all is done for a request that is not admitted
    ensures !Admitted(req) ==> run.pre == []
  {
    if !req.objectLayerReady then Reject([], ErrorJSON(ErrServerNotInitialized))
    else if req.auth != ErrNone then Reject([], ErrorJSON(req.auth))
    else
      var read := [ReadBody(ConfigBufferSize)];
      match ClassifyConfigBody(req.body)
      case TooLarge => Reject(read, ErrorJSON(ErrAdminConfigTooLarge))
      case ReadFailed(err) => Reject(read, ErrorJSON(ToAPIErrorCode(err)))
      case Fits(data) =>
        var password := node.config.credential.secretKey;
        var decrypted := read + [Decrypt(password, data)];
        match svc.decrypt(password, data)
        case None => Reject(decrypted, ErrorJSON(ErrAdminConfigBadJSON))
        case Some(plain) =>
          var checked := decrypted + [CheckDuplicateKeys(plain)];
          if svc.hasDuplicateKeys(plain) then Reject(checked, ErrorJSON(ErrAdminConfigBadJSON))
          else
            var parsed := checked + [Unmarshal(plain)];
            match svc.unmarshal(plain)
            case Err(msg) => Reject(parsed, CustomErrorJSON(ErrAdminConfigBadJSON, msg))
            case Ok(config) =>
              var creds := node.config.credential;
              if node.isEnvCreds
                 && (config.credential.accessKey != creds.accessKey || config.credential.secretKey != creds.secretKey)
              then Reject(parsed, ErrorJSON(ErrAdminCredentialsMismatch))
              else
                var validated := parsed + [ValidateConfig(config)];
                match svc.validate(config)
                case Some(msg) => Reject(validated, CustomErrorJSON(ErrAdminConfigBadJSON, msg))
                case None =>
                  var saved := validated + [Save(config)];
                  match svc.save(config)
                  case Some(err) => Reject(saved, ErrorJSON(ToAdminAPIErrCode(err)))
                  case None => Run(saved, Some(SuccessHeadersOnly), [SendServiceCmd(ServiceRestart)])
  }

  /**
    The first failing step alone decides the reply, and the recorded effects show how far
    the handler got: the object layer, authentication, the size, the read, decryption, the
    duplicate-key check (always before decoding), decoding, environment credentials and
    validation each stop the handler with their own reply. Together with the save cases
    these cover every request.
   */
  lemma SetConfigErrorOrder(req: AdminRequest, node: NodeState, svc: ConfigServices)
    ensures !req.objectLayerReady ==> SetConfig(req, node, svc) == Reject([], ErrorJSON(ErrServerNotInitialized))
    ensures req.objectLayerReady && req.auth != ErrNone ==> SetConfig(req, node, svc) == Reject([], ErrorJSON(req.auth))
    ensures Admitted(req) ==>
      var run := SetConfig(req, node, svc);
      var cls := ClassifyConfigBody(req.body);
      var read := [ReadBody(ConfigBufferSize)];
      var password := node.config.credential.secretKey;
      var decrypted := read + [Decrypt(password, req.body.data)];
      var plain := svc.decrypt(password, req.body.data);
      && (|req.body.data| > MaxConfigJSONSize ==> run == Reject(read, ErrorJSON(ErrAdminConfigTooLarge)))
      && (cls.ReadFailed? ==> run == Reject(read, ErrorJSON(ToAPIErrorCode(EndError(req.body.end)))))
      && (cls.Fits? && plain.None? ==> run == Reject(decrypted, ErrorJSON(ErrAdminConfigBadJSON)))
      && (cls.Fits? && plain.Some? ==>
            var checked := decrypted + [CheckDuplicateKeys(plain.value)];
            var parsed := checked + [Unmarshal(plain.value)];
            var config := svc.unmarshal(plain.value);
            && (svc.hasDuplicateKeys(plain.value) ==> run == Reject(checked, ErrorJSON(ErrAdminConfigBadJSON)))
            && (!svc.hasDuplicateKeys(plain.value) && config.Err? ==>
                  run == Reject(parsed, CustomErrorJSON(ErrAdminConfigBadJSON, config.error)))
            && (!svc.hasDuplicateKeys(plain.value) && config.Ok? && !CredentialAllowed(node, config.value) ==>
                  run == Reject(parsed, ErrorJSON(ErrAdminCredentialsMismatch)))
            && (!svc.hasDuplicateKeys(plain.value) && config.Ok? && CredentialAllowed(node, config.value)
                && svc.validate(config.value).Some? ==>
                  run == Reject(parsed + [ValidateConfig(config.value)], CustomErrorJSON(ErrAdminConfigBadJSON, svc.validate(config.value).value))))
  {
  }

  /**
    A save is attempted exactly when every earlier check passes, and then it is the last
    effect before the reply, saves exactly the accepted configuration, and follows the
    read, decryption, duplicate-key check, decoding and validation, in that order.
   */
  lemma SetConfigSavesOnlyAcceptedConfig(req: AdminRequest, node: NodeState, svc: ConfigServices)
    ensures Saves(SetConfig(req, node, svc)) <==> AcceptedConfig(req, node, svc).Some?
    ensures AcceptedConfig(req, node, svc).Some? ==>
      var pre := SetConfig(req, node, svc).pre;
      |pre| > 0 && pre[|pre| - 1] == Save(AcceptedConfig(req, node, svc).value)
    // on the way to the save every step before it was run, in order, on the decrypted body
    ensures AcceptedConfig(req, node, svc).Some? ==>
      var config := AcceptedConfig(req, node, svc).value;
      var password := node.config.credential.secretKey;
      var plain := svc.decrypt(password, req.body.data);
      && plain.Some?
      && SetConfig(req, node, svc).pre ==
           [ReadBody(ConfigBufferSize), Decrypt(password, req.body.data), CheckDuplicateKeys(plain.value),
            Unmarshal(plain.value), ValidateConfig(config), Save(config)]
  {
    var run := SetConfig(req, node, svc);
    if AcceptedConfig(req, node, svc).None? {
      forall c ensures Save(c) !in run.pre {}
    }
  }

  /**
    The success reply and the restart broadcast that follows it happen exactly when the
    accepted configuration was saved without error.
   */
  lemma SetConfigRestartsOnlyAfterSave(req: AdminRequest, node: NodeState, svc: ConfigServices)
    ensures var run := SetConfig(req, node, svc);
      && (run.post == [SendServiceCmd(ServiceRestart)] <==>
           AcceptedConfig(req, node, svc).Some? && svc.save(AcceptedConfig(req, node, svc).value).None?)
      && (run.reply == Some(SuccessHeadersOnly) <==> run.post == [SendServiceCmd(ServiceRestart)])
  {
  }

  /** A failed save replies with the admin mapping of its error and broadcasts nothing. */
  lemma SetConfigSaveFailure(req: AdminRequest, node: NodeState, svc: ConfigServices, err: GoError)
    requires AcceptedConfig(req, node, svc).Some?
    requires svc.save(AcceptedConfig(req, node, svc).value) == Some(err)
    ensures SetConfig(req, node, svc).reply == Some(ErrorJSON(ToAdminAPIErrCode(err)))
    ensures SetConfig(req, node, svc).post == []
    ensures err == XLWriteQuorum ==> SetConfig(req, node, svc).reply == Some(ErrorJSON(ErrAdminConfigNoQuorum))
  {
  }

  /** An admitted request with a body over the maximum is refused as too large, before any decryption. */
  lemma SetConfigOversizedBody(req: AdminRequest, node: NodeState, svc: ConfigServices)
    requires Admitted(req)
    requires |req.body.data| >= MaxConfigJSONSize + 1
    ensures SetConfig(req, node, svc) == Reject([ReadBody(ConfigBufferSize)], ErrorJSON(ErrAdminConfigTooLarge))
    ensures !Decrypts(SetConfig(req, node, svc))
  {
  }

  /** For an admitted request, the too-large reply is given exactly when the body exceeds the maximum. */
  lemma SetConfigTooLargeIff(req: AdminRequest, node: NodeState, svc: ConfigServices)
    requires Admitted(req)
    ensures SetConfig(req, node, svc).reply == Some(ErrorJSON(ErrAdminConfigTooLarge))
        <==> |req.body.data| > MaxConfigJSONSize
  {
  }

  /** A non-empty body within the maximum is decrypted, whole, with the current secret key. */
  lemma SetConfigDecryptsFittingBody(req: AdminRequest, node: NodeState, svc: ConfigServices)
    requires Admitted(req)
    requires 0 < |req.body.data| <= MaxConfigJSONSize
    requires EndError(req.body.end) == EOF
    ensures var pre := SetConfig(req, node, svc).pre;
      |pre| >= 2 && pre[..2] == [ReadBody(ConfigBufferSize), Decrypt(node.config.credential.secretKey, req.body.data)]
  {
    CompleteBodyFits(req.body);
  }

  /** An empty body is refused with the code for EOF, which is not the too-large code, and nothing is decrypted. */
  lemma SetConfigEmptyBody(req: AdminRequest, node: NodeState, svc: ConfigServices)
    requires Admitted(req)
    requires req.body.data == [] && EndError(req.body.end) == EOF
    ensures SetConfig(req, node, svc) == Reject([ReadBody(ConfigBufferSize)], ErrorJSON(ToAPIErrorCode(EOF)))
    ensures SetConfig(req, node, svc).reply != Some(ErrorJSON(ErrAdminConfigTooLarge))
    ensures !Decrypts(SetConfig(req, node, svc))
  {
  }

  /**
    With environment credentials, a parsed configuration whose credential pair differs
    from the current one is refused as a mismatch before validation or save; with the
    identical pair (or without environment credentials) the request goes on to validation.
   */
  lemma SetConfigEnvironmentCredentials(req: AdminRequest, node: NodeState, svc: ConfigServices, plain: Bytes, config: ServerConfig)
    requires Admitted(req)
    requires ClassifyConfigBody(req.body).Fits?
    requires svc.decrypt(node.config.credential.secretKey, ClassifyConfigBody(req.body).data) == Some(plain)
    requires !svc.hasDuplicateKeys(plain)
    requires svc.unmarshal(plain) == Ok(config)
    ensures !CredentialAllowed(node, config) ==>
      && SetConfig(req, node, svc).reply == Some(ErrorJSON(ErrAdminCredentialsMismatch))
      && !Saves(SetConfig(req, node, svc))
    ensures CredentialAllowed(node, config) ==>
      && SetConfig(req, node, svc).reply != Some(ErrorJSON(ErrAdminCredentialsMismatch))
      && ValidateConfig(config) in SetConfig(req, node, svc).pre
  {
    if !CredentialAllowed(node, config) {
      forall c ensures Save(c) !in SetConfig(req, node, svc).pre {}
    }
  }
}

=== FILE: update_credentials.dfy ===
/**
  `UpdateCredentialsHandler`: replace the server credential. Refused outright when the
  credentials come from the environment; otherwise the body goes through the same size
  check and decryption as a configuration update, is parsed into an access/secret key
  pair, and the new credential is set in memory, saved, and announced to every peer.
 */
module UpdateCredentialsHandler {
  import opened Wrappers
  import opened AdminTypes
  import opened ErrorCodes
  import opened ConfigBody

  /** The decoded `SetCredsReq` body. */
  datatype SetCredsReq = SetCredsReq(accessKey: string, secretKey: string)

  /** One peer's answer to the credential-reload notification: its host and its error, if any. */
  datatype PeerNotice = PeerNotice(host: string, err: Option<string>)

  /** The collaborators of the credential update, as their outcomes on given inputs. */
  datatype CredentialServices = CredentialServices(
    decrypt: (string, Bytes) -> Option<Bytes>,                 // None: decryption failed
    unmarshal: Bytes -> Option<SetCredsReq>,                   // None: the JSON did not decode
    createCredentials: (string, string) -> Result<Credential, GoError>,
    save: ServerConfig -> Option<GoError>,                     // Some(err): saveServerConfig failed
    peerNotices: seq<PeerNotice>)                              // LoadCredentials' results, in iteration order

  /** A handler run together with the in-memory configuration it leaves behind. */
  datatype CredentialOutcome = CredentialOutcome(run: Run, config: ServerConfig)

  /** The log lines written for the peers whose credential reload failed, in order. */
  function PeerErrorLogs(notices: seq<PeerNotice>): (logs: seq<Effect>)
    ensures |logs| <= |notices|
    ensures forall i :: 0 <= i < |logs| ==> logs[i].LogPeerError?
    ensures forall h, m :: LogPeerError(h, m) in logs <==> PeerNotice(h, Some(m)) in notices
    // one log line per failing notice: no failing peer is logged twice or skipped
    ensures forall h, m :: multiset(logs)[LogPeerError(h, m)] == multiset(notices)[PeerNotice(h, Some(m))]
  {
    if |notices| == 0 then []
    else
      var rest := PeerErrorLogs(notices[1..]);
      assert notices == [notices[0]] + notices[1..];
      match notices[0].err
      case None => rest
      case Some(m) => [LogPeerError(notices[0].host, m)] + rest
  }

  /** The configuration with its credential replaced, as `SetCredential` does. */
  function WithCredential(config: ServerConfig, cred: Credential): (r: ServerConfig)
    ensures r.credential == cred && r.settings == config.settings
  {
    config.(credential := cred)
  }

  /**
    The credential a request asks for, when it gets as far as setting it: admitted, not
    environment-sourced, a fitting body that decrypts under the current secret key,
    decodes, and is accepted by `CreateCredentials`.
   */
  function RequestedCredential(req: AdminRequest, node: NodeState, svc: CredentialServices): Option<Credential>
  {
    var cls := ClassifyConfigBody(req.body);
    var plain := if cls.Fits? then svc.decrypt(node.config.credential.secretKey, cls.data) else None;
    var decoded := if plain.Some? then svc.unmarshal(plain.value) else None;
    var created := if decoded.Some? then Some(svc.createCredentials(decoded.value.accessKey, decoded.value.secretKey)) else None;
    if Admitted(req) && !node.isEnvCreds && created.Some? && created.value.Ok?
    then Some(created.value.value)
    else None
  }

  /** The handler, as a function of the request, the node state and the collaborators' outcomes. */
  function UpdateCredentials(req: AdminRequest, node: NodeState, svc: CredentialServices): (out: CredentialOutcome)
    ensures out.run.reply.Some? && out.run.post == []
    // only the credential can change, and only through a recorded SetCredential
    ensures out.config.settings == node.config.settings
    ensures out.config != node.config ==> SetCredential(out.config.credential) in out.run.pre
  {
    var current := node.config;
    if !req.objectLayerReady then CredentialOutcome(Reject([], ErrorJSON(ErrServerNotInitialized)), current)
    else if node.isEnvCreds then CredentialOutcome(Reject([], ErrorJSON(ErrMethodNotAllowed)), current)
    else if req.auth != ErrNone then CredentialOutcome(Reject([], ErrorJSON(req.auth)), current)
    else
      var read := [ReadBody(ConfigBufferSize)];
      match ClassifyConfigBody(req.body)
      case TooLarge => CredentialOutcome(Reject(read, ErrorJSON(ErrAdminConfigTooLarge)), current)
      case ReadFailed(err) => CredentialOutcome(Reject(read, ErrorJSON(ToAPIErrorCode(err))), current)
      case Fits(data) =>
        var password := node.config.credential.secretKey;
        var decrypted := read + [Decrypt(password, data)];
        match svc.decrypt(password, data)
        case None => CredentialOutcome(Reject(decrypted, ErrorJSON(ErrAdminConfigBadJSON)), current)
        case Some(plain) =>
          var parsed := decrypted + [Unmarshal(plain)];
          match svc.unmarshal(plain)
          case None => CredentialOutcome(Reject(parsed, ErrorJSON(ErrRequestBodyParse)), current)
          case Some(setReq) =>
            var created := parsed + [CreateCredentials(setReq.accessKey, setReq.secretKey)];
            match svc.createCredentials(setReq.accessKey, setReq.secretKey)
            case Err(err) => CredentialOutcome(Reject(created, ErrorJSON(ToAPIErrorCode(err))), current)
            case Ok(creds) =>
              // the in-memory credential changes before the save and is kept if it fails
              var updated := WithCredential(node.config, creds);
              var saved := created + [SetCredential(creds), Save(updated)];
              match svc.save(updated)
              case Some(err) => CredentialOutcome(Reject(saved, ErrorJSON(ToAdminAPIErrCode(err))), updated)
              case None =>
                var notified := saved + [LoadCredentialsOnPeers] + PeerErrorLogs(svc.peerNotices);
                CredentialOutcome(Run(notified, Some(SuccessHeadersOnly), []), updated)
  }

  /**
    With environment credentials the request is refused with ErrMethodNotAllowed before
    authentication or reading the body: nothing else happens and nothing changes.
   */
  lemma EnvironmentCredentialsRefused(req: AdminRequest, node: NodeState, svc: CredentialServices)
    requires req.objectLayerReady
    requires node.isEnvCreds
    ensures UpdateCredentials(req, node, svc) == CredentialOutcome(Reject([], ErrorJSON(ErrMethodNotAllowed)), node.config)
  {
  }

  /**
    The first failing step alone decides the reply, and the recorded effects show how far
    the handler got: the object layer, environment credentials (before authentication),
    authentication, the size, the read, decryption, decoding and `CreateCredentials` each
    stop the handler with their own reply, leaving the configuration as it was.
   */
  lemma UpdateCredentialsErrorOrder(req: AdminRequest, node: NodeState, svc: CredentialServices)
    ensures !req.objectLayerReady ==>
      UpdateCredentials(req, node, svc) == CredentialOutcome(Reject([], ErrorJSON(ErrServerNotInitialized)), node.config)
    ensures req.objectLayerReady && node.isEnvCreds ==>
      UpdateCredentials(req, node, svc) == CredentialOutcome(Reject([], ErrorJSON(ErrMethodNotAllowed)), node.config)
    ensures req.objectLayerReady && !node.isEnvCreds && req.auth != ErrNone ==>
      UpdateCredentials(req, node, svc) == CredentialOutcome(Reject([], ErrorJSON(req.auth)), node.config)
    ensures Admitted(req) && !node.isEnvCreds ==>
      var out := UpdateCredentials(req, node, svc);
      var cls := ClassifyConfigBody(req.body);
      var read := [ReadBody(ConfigBufferSize)];
      var password := node.config.credential.secretKey;
      var decrypted := read + [Decrypt(password, req.body.data)];
      var plain := svc.decrypt(password, req.body.data);
      && (out.run.reply == Some(ErrorJSON(ErrAdminConfigTooLarge)) <==> |req.body.data| > MaxConfigJSONSize)
      && (|req.body.data| > MaxConfigJSONSize ==> out == CredentialOutcome(Reject(read, ErrorJSON(ErrAdminConfigTooLarge)), node.config))
      && (cls.ReadFailed? ==> out == CredentialOutcome(Reject(read, ErrorJSON(ToAPIErrorCode(EndError(req.body.end)))), node.config))
      && (req.body.data == [] && EndError(req.body.end) == EOF ==>
            out == CredentialOutcome(Reject(read, ErrorJSON(ToAPIErrorCode(EOF))), node.config))
      && (cls.Fits? && plain.None? ==> out == CredentialOutcome(Reject(decrypted, ErrorJSON(ErrAdminConfigBadJSON)), node.config))
      && (cls.Fits? && plain.Some? && svc.unmarshal(plain.value).None? ==>
            out == CredentialOutcome(Reject(decrypted + [Unmarshal(plain.value)], ErrorJSON(ErrRequestBodyParse)), node.config))
      && (cls.Fits? && plain.Some? && svc.unmarshal(plain.value).Some? ==>
            var setReq := svc.unmarshal(plain.value).value;
            var created := svc.createCredentials(setReq.accessKey, setReq.secretKey);
            created.Err? ==>
              out == CredentialOutcome(
                Reject(decrypted + [Unmarshal(plain.value), CreateCredentials(setReq.accessKey, setReq.secretKey)], ErrorJSON(ToAPIErrorCode(created.error))),
                node.config))
  {
  }

  /**
    Once a new credential is accepted, the handler has read the body, decrypted it under
    the current secret key, decoded it and had `CreateCredentials` accept the decoded pair;
    the credential is then set in memory immediately before the save, the save writes the
    configuration carrying it, and it stays in memory whether or not the save succeeds; a
    failed save replies with the admin mapping of its error and does nothing else.
   */
  lemma CredentialSetBeforeSaveAndKept(req: AdminRequest, node: NodeState, svc: CredentialServices, creds: Credential)
    requires RequestedCredential(req, node, svc) == Some(creds)
    ensures var out := UpdateCredentials(req, node, svc);
      var pre := out.run.pre;
      var password := node.config.credential.secretKey;
      var plain := svc.decrypt(password, req.body.data);
      && plain.Some? && svc.unmarshal(plain.value).Some?
      && (var setReq := svc.unmarshal(plain.value).value;
          && |pre| >= 6
          && pre[..6] == [ReadBody(ConfigBufferSize), Decrypt(password, req.body.data), Unmarshal(plain.value),
                          CreateCredentials(setReq.accessKey, setReq.secretKey),
                          SetCredential(creds), Save(WithCredential(node.config, creds))])
      && out.config == WithCredential(node.config, creds)
    ensures forall err :: svc.save(WithCredential(node.config, creds)) == Some(err) ==>
      UpdateCredentials(req, node, svc).run.reply == Some(ErrorJSON(ToAdminAPIErrCode(err)))
    // a failed save ends the handler: nothing is done after it, the peers are not notified
    ensures svc.save(WithCredential(node.config, creds)).Some? ==> |UpdateCredentials(req, node, svc).run.pre| == 6
  {
  }

  /** Without an accepted credential, the in-memory configuration is left exactly as it was and nothing is saved. */
  lemma NoCredentialNoChange(req: AdminRequest, node: NodeState, svc: CredentialServices)
    requires RequestedCredential(req, node, svc).None?
    ensures UpdateCredentials(req, node, svc).config == node.config
    ensures !Saves(UpdateCredentials(req, node, svc).run)
  {
    forall c ensures Save(c) !in UpdateCredentials(req, node, svc).run.pre {}
  }

  /**
    After a successful save every peer is told to reload, each failing peer is only
    logged, and the reply is success whatever the peers answered.
   */
  lemma PeerErrorsOnlyLogged(req: AdminRequest, node: NodeState, svc: CredentialServices, creds: Credential)
    requires RequestedCredential(req, node, svc) == Some(creds)
    requires svc.save(WithCredential(node.config, creds)).None?
    ensures var pre := UpdateCredentials(req, node, svc).run.pre;
      |pre| >= 6 && pre[6..] == [LoadCredentialsOnPeers] + PeerErrorLogs(svc.peerNotices)
    ensures UpdateCredentials(req, node, svc).run.reply == Some(SuccessHeadersOnly)
  {
    CredentialSetBeforeSaveAndKept(req, node, svc, creds);
    var password := node.config.credential.secretKey;
    var plain := svc.decrypt(password, req.body.data).value;
    var setReq := svc.unmarshal(plain).value;
    var saved := [ReadBody(ConfigBufferSize), Decrypt(password, req.body.data), Unmarshal(plain),
                  CreateCredentials(setReq.accessKey, setReq.secretKey),
                  SetCredential(creds), Save(WithCredential(node.config, creds))];
    var logs := PeerErrorLogs(svc.peerNotices);
    assert UpdateCredentials(req, node, svc).run.pre == saved + [LoadCredentialsOnPeers] + logs;
    assert (saved + [LoadCredentialsOnPeers] + logs)[6..] == [LoadCredentialsOnPeers] + logs;
  }

  /** Two runs that differ only in the peers' reload answers reply identically and leave the same state. */
  lemma PeerNoticesDoNotAffectReply(req: AdminRequest, node: NodeState, svc: CredentialServices, notices: seq<PeerNotice>)
    ensures UpdateCredentials(req, node, svc).run.reply == UpdateCredentials(req, node, svc.(peerNotices := notices)).run.reply
    ensures UpdateCredentials(req, node, svc).config == UpdateCredentials(req, node, svc.(peerNotices := notices)).config
  {
  }
}

=== FILE: wrappers.dfy ===
/** Failure-carrying values used by the collaborator outcomes of the admin handlers. */
module Wrappers {

  /** A value that may be absent: a Go nil value, a nil error or a missing result. */
  datatype Option<+T> = None | Some(value: T)

  /** The outcome of a collaborator that either produces a value or fails. */
  datatype Result<+T, +E> = Ok(value: T) | Err(error: E)
}
